=== FILE: README.md ===
# Calculator evaluator, modelled in Dafny

This project models `CalculatorBrain`, the evaluator behind a simple
calculator app. The evaluator keeps four things:

- an accumulator: an optional value and an optional expression text;
- two flags, `resultIsPending` and `appendLastOperand`;
- an optional pending binary operation, which holds its first operand.

It reacts to two calls. `setOperand` enters a number. `performOperation`
presses a symbol from a fixed table: the constants π and e; the unary
operations √, cos, sin, ٪ and ±; the binary operations ×, ÷, + and −; `=`;
and `AC`. Two read-only views show the state: `result` is the value, and
`record` is the history line.

The model is functional. The state is an immutable `Brain<V>` record, and
each call is a pure function from one state to the next. The value type `V`
is abstract. Every constant and function of the table, the 0 that `AC`
leaves, and the text rendering of a number come from an `Arith<V>` record.
So the proofs are about the evaluator's bookkeeping, not about floating
point.

The Swift code force-unwraps the expression in several places. An unwrap of
an absent expression stops the program. The model makes this visible: a
step returns either the next state or `NilUnwrap(site)`, which names the
unwrap that failed.

Files:

- `brain.dfy` (module `CalculatorBrain`): the state, the operation table,
  `SetOperand`, `Apply`/`Perform` (the five kinds of operation),
  `PerformPending`, `Result` and `Record`.
- `session.dfy` (module `Session`): a sequence of inputs, and `Run`, which
  feeds them to the evaluator one at a time.
- `properties.dfy` (module `BrainProperties`): what one input does.
- `safety.dfy` (module `Safety`): the invariant that keeps the unwraps safe,
  which inputs preserve it, and how `AC` breaks it.
- `chaining.dfy` (module `Chaining`): binary operators chain from left to
  right, proved against an independent left fold.
- `scenarios.dfy` (module `Scenarios`): short sessions and their outcomes.

What the proofs show:

- Every input except `AC` keeps this invariant: "a present value or a pending
  result comes with an expression". Under the invariant, no unwrap fails.
- `AC` breaks the invariant. It leaves the value 0 with no expression, and it
  does not lower `appendLastOperand`. So `AC` followed by a unary operation
  fails at the unwrap on line 55. `AC` followed by a binary operation fails
  at line 66. `x + AC =` fails at line 73.
- The other two unwraps never fail in any session from a fresh evaluator.
  These are the pending-result branch of line 55, and line 62.
- A raised `resultIsPending` always has a pending operation behind it, in
  every state any input reaches. The converse fails: `=` pressed directly
  after a binary operator finds no value. It lowers both flags but keeps the
  pending operation. A later `y =` then resolves that
  operation, so `x + = y =` shows the record `y =` but computes `x + y`.

Three behaviours of the code are easy to miss:

- `AC` does not lower `appendLastOperand`. So when `AC` follows a binary
  operator, an operand entered next and closed by `=` is spelled twice:
  `x + AC y =` shows `y` and records `y y =`, with `y` rendered both times.
- The record is not only ever appended to. A new operand with no result
  pending replaces it. A unary operation with no result pending wraps it as
  `symbol(...)`.
- A constant is glued to the expression with no space. When `=` follows a
  constant entered as the second operand, the constant's value is never
  spelled as an operand. When a binary operator follows it instead, the
  constant's rendered value is spelled after its symbol: `x + π + y =`
  records `x +π <π> + y =`, where `<π>` is the rendered value of π.

## Model

| member | source | states |
|---|---|---|
| CalculatorBrain.Lookup | calculator/CalculatorBrain.swift:25-40 | The table names exactly two constants, five unary and four binary operations, `=` and `AC`; every other string is `Unknown` |
| CalculatorBrain.Init | calculator/CalculatorBrain.swift:13-15 | A fresh evaluator shows no result and the blank record " ", has no pending operation, and has both flags down |
| CalculatorBrain.Result | calculator/CalculatorBrain.swift:115-119 | The value on display. `Session.Step` proves that right after an operand it is that operand, and `BrainProperties.BinaryAwaitsOperand` that it is absent while a binary operation awaits its operand |
| CalculatorBrain.PendingBinaryOperation.Perform | calculator/CalculatorBrain.swift:101-103 | Applies the captured function to the first operand and the given second operand, in that order. `PerformPending` uses it as the new value, and `Chaining.ChainResolves` shows the results folding from left to right |
| CalculatorBrain.SetOperand | calculator/CalculatorBrain.swift:106-113 | The operand becomes the value. Its text replaces the expression when no result is pending, and the expression is kept when one is. Flags and pending operation are unchanged |
| CalculatorBrain.PerformPending | calculator/CalculatorBrain.swift:87-93 | The pending operation is applied to the value and discarded only when both are present; otherwise nothing changes. The expression and flags are never touched |
| CalculatorBrain.Apply | calculator/CalculatorBrain.swift:42-85 | A step fails on an absent expression exactly when a unary or binary operation, or an `=` owing the last operand, meets a present value with no expression. It also names the unwrap that fails |
| CalculatorBrain.Perform | calculator/CalculatorBrain.swift:42-43 | A symbol outside the table leaves the whole state unchanged |
| CalculatorBrain.Record | calculator/CalculatorBrain.swift:121-131 | The record is a single space exactly when there is no expression. Otherwise it is the expression followed by " ..." exactly when a result is pending, and by " =" exactly when not |
| BrainProperties.OperandOverwrites | calculator/CalculatorBrain.swift:106-113 | Of two operands entered in a row, only the last one shows in the value and the text |
| BrainProperties.AbsentValueIsNoOp | calculator/CalculatorBrain.swift:53-60 | A unary or binary symbol pressed with no value present changes nothing |
| BrainProperties.ConstantReplacesValue | calculator/CalculatorBrain.swift:45-52 | A constant becomes the value and extends the expression (or starts it) with its symbol. It lowers `appendLastOperand` and keeps the pending operation and `resultIsPending` |
| BrainProperties.UnaryAppliesToValue | calculator/CalculatorBrain.swift:53-58 | A unary operation applies its function to the value. While a result is pending it appends `symbol(value)`; otherwise it wraps the expression as `symbol(expression)` |
| BrainProperties.BinaryAwaitsOperand | calculator/CalculatorBrain.swift:59-69 | A binary operation leaves a pending operation whose first operand is the value, resolved first if a result was pending. It clears the value, raises both flags, and extends the expression by the pending operand's text and its own symbol |
| BrainProperties.EqualsSettles | calculator/CalculatorBrain.swift:71-77 | `=` always lowers both flags. It appends the operand text exactly when owed and a value is present. It resolves and discards the pending operation exactly when it and the value are both present |
| BrainProperties.EqualsIdempotent | calculator/CalculatorBrain.swift:71-92 | Pressing `=` again right after `=` leaves the whole state unchanged |
| BrainProperties.PerformPendingIdempotent | calculator/CalculatorBrain.swift:87-93 | Resolving the pending operation twice is the same as resolving it once |
| BrainProperties.ClearResets | calculator/CalculatorBrain.swift:78-81 | From any state, `AC` gives result 0, record " ", no pending operation and `resultIsPending` false. It keeps `appendLastOperand` |
| Safety.StepKeepsPendingBacksFlag | calculator/CalculatorBrain.swift:59-92 | Every input, `AC` included, keeps "a raised `resultIsPending` has a pending operation behind it" |
| Safety.RunKeepsPendingBacksFlag | calculator/CalculatorBrain.swift:42-113 | Every session keeps that invariant in every state it reaches |
| Safety.InitCoversValue | calculator/CalculatorBrain.swift:13-15 | A fresh evaluator satisfies the invariant "a value or a pending result comes with an expression" |
| Safety.ApplyKeepsText | calculator/CalculatorBrain.swift:45-77 | Every operation except `AC` keeps the invariant, and under the invariant it never fails at an unwrap |
| Safety.SetOperandKeepsText | calculator/CalculatorBrain.swift:106-113 | Entering an operand keeps the invariant |
| Safety.ClearDropsText | calculator/CalculatorBrain.swift:78-81 | `AC` breaks the invariant from any state. It leaves a value with no expression and nothing pending |
| Safety.ClearThenUnaryTraps | calculator/CalculatorBrain.swift:53-58 | After `AC`, any unary operation fails unwrapping the expression in the branch with no result pending |
| Safety.ClearThenBinaryTraps | calculator/CalculatorBrain.swift:59-69 | After `AC`, any binary operation fails unwrapping the expression when it appends its symbol |
| Safety.ClearAfterBinaryThenEqualsTraps | calculator/CalculatorBrain.swift:71-81 | `x + AC =` fails when `=` appends the last operand to the absent expression |
| Safety.NoClearNoTrap | calculator/CalculatorBrain.swift:42-113 | A session without `AC` that starts in a state with the invariant never fails, and ends in a state with the invariant |
| Safety.StepKeepsReachable | calculator/CalculatorBrain.swift:42-113 | From a state with the invariant, or the state `AC` leaves, one input reaches such a state again. Otherwise it fails from the state `AC` leaves, at the unary, binary or `=` unwrap, never at the two guarded by a pending result |
| Safety.RunKeepsReachable | calculator/CalculatorBrain.swift:42-113 | The same holds for whole sessions: every state reached has the invariant or is the state `AC` leaves, and a failure is never at the guarded unwraps |
| Safety.GuardedUnwrapsAreSafe | calculator/CalculatorBrain.swift:55-62 | No session from a fresh evaluator fails at the pending-result unwrap of a unary operation or at the chaining unwrap of a binary one |
| Chaining.ChainStep | calculator/CalculatorBrain.swift:59-69 | A binary operator and operand entered while one is pending resolve the pending one into the new operation's first operand |
| Chaining.ChainEquals | calculator/CalculatorBrain.swift:71-77 | `=` while a binary operation awaits its second operand resolves it and spells the operand into the expression |
| Chaining.ChainResolves | calculator/CalculatorBrain.swift:59-103 | From a state where a binary operation awaits its second operand, a chain of operators and operands closed by `=` folds from left to right. The chain is spelled into the expression |
| Chaining.ChainIsLeftAssociative | calculator/CalculatorBrain.swift:59-103 | From any state with no result pending, `x op1 y1 ... opn yn =` gives the left fold of the chain as its result. The record spells the chain followed by " =", and nothing is left pending |
| Chaining.SumOfThree | calculator/CalculatorBrain.swift:36-36 | `x + y + z =` computes `(x + y) + z` |
| Chaining.DivisionKeepsOrder | calculator/CalculatorBrain.swift:35-35 | `x ÷ y =` divides `x` by `y`, not `y` by `x` |
| Scenarios.ConstantThenUnary | calculator/CalculatorBrain.swift:45-58 | `π √` gives the square root of π and records `√(π) =` |
| Scenarios.UnknownKeepsView | calculator/CalculatorBrain.swift:43-43 | A symbol outside the table leaves both `result` and `record` unchanged |
| Scenarios.EqualsWithoutOperandKeepsPending | calculator/CalculatorBrain.swift:71-92 | After `x + =` the `+` is still pending while `resultIsPending` is false, so a pending operation does not imply the flag. The second `=` of `x + = y =` computes `x + y` while the record shows only `y =` |
| Scenarios.ConstantThenBinarySpellsValue | calculator/CalculatorBrain.swift:45-69 | `x + π + y =` computes `(x + π) + y`. The record spells the constant's symbol glued to the first `+`, then its rendered value, then `+ y =` |
| Scenarios.ClearKeepsOperandOwed | calculator/CalculatorBrain.swift:71-81 | `AC` leaves the last operand owed, so `x + AC y =` shows `y` and records `y`'s text twice, followed by " =" |
| Scenarios.ConstantAsSecondOperand | calculator/CalculatorBrain.swift:45-52 | `x + π =` computes `x + π`, and records the constant next to the operator with no space |

## Left out

- Floating point: the values of π and e, and the meaning of √, cos, sin, ٪, ±, ×, ÷, + and − (lines 27-37), are fields of `Arith<V>` over an abstract `V`. IEEE-754 arithmetic is not modelled.
- Number text: the exact output of `String(Double)` and of `"\(x)"` (lines 55, 62, 73, 111) is the abstract `render` function, and the two are taken to agree.
- Dictionary lookup (line 43) is the total function `Lookup`, whose `Unknown` case stands for a missing key.
- Mutation: the `mutating` methods are pure functions from state to state. A failed unwrap stops the session instead of ending the process.
- `record` is declared optional but is never absent; it is modelled as a plain string.
- CalculatorBrain.Lookup: its contract classifies each symbol by kind only. Which constant or function each symbol names is fixed by its body and not restated.
- The user interface that calls the evaluator is not part of this model.

=== FILE: brain.dfy ===
/** A model of the calculator's evaluator (`struct CalculatorBrain`).

The evaluator keeps an accumulator — an optional value and an optional
human-readable expression — two flags, and an optional pending binary
operation. It reacts to two inputs: an operand, and a symbol looked up in a
fixed operation table. The numbers are abstract: every constant, function and
the text rendering of a number come from an `Arith<V>` record, so the model
states the evaluator's bookkeeping without committing to floating point.

A forced unwrap of an absent expression is a run-time trap in the Swift program;
here it is the `NilUnwrap` outcome, naming the unwrap that failed.
 */
module CalculatorBrain {

  datatype Option<+T> = None | Some(value: T)

  /** The arithmetic and text rendering the evaluator is parameterised over. */
  datatype Arith<!V> = Arith(
    render: V -> string,        // the text of a number, as `String(x)` and `"\(x)"` produce it
    zero: V,                    // the value `AC` leaves behind
    pi: V,
    e: V,
    sqrt: V -> V,
    cos: V -> V,
    sin: V -> V,
    percent: V -> V,            // x / 100
    negate: V -> V,
    times: (V, V) -> V,
    divide: (V, V) -> V,
    plus: (V, V) -> V,
    minus: (V, V) -> V
  )

  /** What a symbol means. `Unknown` stands for a miss in the operation table. */
  datatype Operation<!V> =
    | Constant(constant: V)
    | Unary(unary: V -> V)
    | Binary(binary: (V, V) -> V)
    | Equals
    | Clear
    | Unknown

  // The symbols of the operation table.
  const PiSymbol: string := "\U{03C0}"
  const ESymbol: string := "e"
  const SqrtSymbol: string := "\U{221A}"
  const CosSymbol: string := "cos"
  const SinSymbol: string := "sin"
  const PercentSymbol: string := "\U{066A}"
  const NegateSymbol: string := "\U{00B1}"
  const TimesSymbol: string := "\U{00D7}"
  const DivideSymbol: string := "\U{00F7}"
  const PlusSymbol: string := "+"
  const MinusSymbol: string := "\U{2212}"
  const EqualsSymbol: string := "="
  const ClearSymbol: string := "AC"

  const ConstantSymbols: set<string> := {PiSymbol, ESymbol}
  const UnarySymbols: set<string> := {SqrtSymbol, CosSymbol, SinSymbol, PercentSymbol, NegateSymbol}
  const BinarySymbols: set<string> := {TimesSymbol, DivideSymbol, PlusSymbol, MinusSymbol}
  const Symbols: set<string> := ConstantSymbols + UnarySymbols + BinarySymbols + {EqualsSymbol, ClearSymbol}

  /** The operation table: every symbol it names, classified by kind; any other
      string is `Unknown`. */
  function Lookup<V>(a: Arith<V>, symbol: string): (op: Operation<V>)
    ensures op.Constant? <==> symbol in ConstantSymbols
    ensures op.Unary? <==> symbol in UnarySymbols
    ensures op.Binary? <==> symbol in BinarySymbols
    ensures op.Equals? <==> symbol == EqualsSymbol
    ensures op.Clear? <==> symbol == ClearSymbol
    ensures op.Unknown? <==> symbol !in Symbols
  {
    if symbol == PiSymbol then Constant(a.pi)
    else if symbol == ESymbol then Constant(a.e)
    else if symbol == SqrtSymbol then Unary(a.sqrt)
    else if symbol == CosSymbol then Unary(a.cos)
    else if symbol == SinSymbol then Unary(a.sin)
    else if symbol == PercentSymbol then Unary(a.percent)
    else if symbol == NegateSymbol then Unary(a.negate)
    else if symbol == TimesSymbol then Binary(a.times)
    else if symbol == DivideSymbol then Binary(a.divide)
    else if symbol == PlusSymbol then Binary(a.plus)
    else if symbol == MinusSymbol then Binary(a.minus)
    else if symbol == EqualsSymbol then Equals
    else if symbol == ClearSymbol then Clear
    else Unknown
  }

  /** A binary operation waiting for its second operand. */
  datatype PendingBinaryOperation<!V> = PendingBinaryOperation(binary: (V, V) -> V, firstOperand: V)
  {
    function Perform(secondOperand: V): V {
      binary(firstOperand, secondOperand)
    }
  }

  /** The evaluator's whole state. */
  datatype Brain<!V> = Brain(
    value: Option<V>,
    expression: Option<string>,
    resultIsPending: bool,
    appendLastOperand: bool,
    pending: Option<PendingBinaryOperation<V>>
  )

  /** The state of a freshly created evaluator: it shows no result and a blank
      record, and nothing is pending. */
  function Init<V>(): (r: Brain<V>)
    ensures Result(r).None? && Record(r) == " "
    ensures !r.resultIsPending && !r.appendLastOperand && r.pending.None?
  {
    Brain(None, None, false, false, None)
  }

  /** The forced unwraps of the expression that can meet an absent one. */
  datatype UnwrapSite =
    | PendingUnaryText   // unary operation while a result is pending
    | UnaryText          // unary operation with no result pending
    | ChainText          // binary operation resolving the pending one first
    | BinaryText         // binary operation appending its own symbol
    | EqualsText         // `=` appending the last operand

  /** The effect of one input: the next state, or a trap at a forced unwrap. */
  datatype Outcome<!V> = Next(brain: Brain<V>) | NilUnwrap(site: UnwrapSite)

  /** The operand entered by the user becomes the value; its text starts a new
      expression unless a binary operation is waiting for it. */
  function SetOperand<V>(a: Arith<V>, b: Brain<V>, x: V): (r: Brain<V>)
    ensures r.value == Some(x)
    ensures b.resultIsPending ==> r.expression == b.expression
    ensures !b.resultIsPending ==> r.expression == Some(a.render(x))
    ensures r.(value := b.value, expression := b.expression) == b
  {
    var text := if b.resultIsPending then b.expression else Some(a.render(x));
    b.(value := Some(x), expression := text)
  }

  /** Resolves the pending binary operation against the value, when both are
      present, and discards it; otherwise changes nothing. */
  function PerformPending<V>(b: Brain<V>): (r: Brain<V>)
    ensures b.pending.Some? && b.value.Some? ==>
              r.value == Some(b.pending.value.Perform(b.value.value)) && r.pending.None?
    ensures b.pending.None? || b.value.None? ==> r == b
    ensures r.(value := b.value, pending := b.pending) == b
  {
    if b.pending.Some? && b.value.Some? then
      b.(value := Some(b.pending.value.Perform(b.value.value)), pending := None)
    else
      b
  }

  /** The effect of operation `op`, found in the table under `symbol`. The
      outcome is a trap exactly when an absent expression is force-unwrapped:
      a unary or binary operation, or `=` that owes the last operand's text,
      meeting a present value but no expression. */
  function Apply<V>(a: Arith<V>, b: Brain<V>, symbol: string, op: Operation<V>): (r: Outcome<V>)
    ensures r.NilUnwrap? <==>
              && b.value.Some? && b.expression.None?
              && (op.Unary? || op.Binary? || (op.Equals? && b.appendLastOperand))
    ensures r.NilUnwrap? ==>
              r.site == (match op
                         case Unary(_) => if b.resultIsPending then PendingUnaryText else UnaryText
                         case Binary(_) => if b.resultIsPending then ChainText else BinaryText
                         case _ => EqualsText)
  {
    match op
    case Constant(c) =>
      Next(b.(value := Some(c), expression := Some(if b.expression.Some? then b.expression.value + symbol else symbol), appendLastOperand := false))
    case Unary(f) =>
      if b.value.None? then Next(b)
      else if b.expression.None? then NilUnwrap(if b.resultIsPending then PendingUnaryText else UnaryText)
      else
        var v := b.value.value;
        var text :=
          if b.resultIsPending then b.expression.value + " " + symbol + "(" + a.render(v) + ")"
          else symbol + "(" + b.expression.value + ")";
        Next(b.(value := Some(f(v)), expression := Some(text), appendLastOperand := false))
    case Binary(f) =>
      if b.value.None? then Next(b)
      else if b.expression.None? then NilUnwrap(if b.resultIsPending then ChainText else BinaryText)
      else
        var resolved :=
          if b.resultIsPending then
            PerformPending(b.(expression := Some(b.expression.value + " " + a.render(b.value.value))))
          else b;
        Next(resolved.(value := None,
                       expression := Some(resolved.expression.value + " " + symbol),
                       pending := Some(PendingBinaryOperation(f, resolved.value.value)),
                       resultIsPending := true,
                       appendLastOperand := true))
    case Equals =>
      if b.appendLastOperand && b.value.Some? && b.expression.None? then NilUnwrap(EqualsText)
      else
        var appended :=
          if b.appendLastOperand && b.value.Some? then
            b.(expression := Some(b.expression.value + " " + a.render(b.value.value)))
          else b;
        Next(PerformPending(appended).(resultIsPending := false, appendLastOperand := false))
    case Clear =>
      Next(b.(pending := None, resultIsPending := false, value := Some(a.zero), expression := None))
    case Unknown =>
      Next(b)
  }

  /** The effect of pressing `symbol`. */
  function Perform<V>(a: Arith<V>, b: Brain<V>, symbol: string): (r: Outcome<V>)
    ensures symbol !in Symbols ==> r == Next(b)
  {
    Apply(a, b, symbol, Lookup(a, symbol))
  }

  /** The value on display, absent while a binary operation awaits its operand. */
  function Result<V>(b: Brain<V>): Option<V> {
    b.value
  }

  /** The marker that ends a non-empty record. */
  function Marker(resultIsPending: bool): string {
    if resultIsPending then " ..." else " ="
  }

  /** The history line: a single space when there is no expression; otherwise
      the expression followed by " ..." while a result is pending and by " ="
      once it is not. */
  function Record<V>(b: Brain<V>): (r: string)
    ensures r == " " <==> b.expression.None?
    ensures b.expression.Some? ==>
              var n := |b.expression.value|;
              && |r| > n
              && r[..n] == b.expression.value
              && (r[n..] == " ..." <==> b.resultIsPending)
              && (r[n..] == " =" <==> !b.resultIsPending)
  {
    if b.expression.Some? then b.expression.value + Marker(b.resultIsPending) else " "
  }
}

=== FILE: chaining.dfy ===
/** Left-to-right chaining of binary operations.

`x op1 y1 op2 y2 ... opn yn =` evaluates as `opn(...op2(op1(x, y1), y2)..., yn)`:
every binary operator entered while another is pending first resolves the
pending one, and its result becomes the new first operand. `FoldLeft` is that
evaluation order written independently of the evaluator, and `Spelled` the
history text the chain leaves behind.
 */
module Chaining {
  import opened CalculatorBrain
  import opened Session

  /** A binary operator followed by its right-hand operand. */
  datatype Term<V> = Term(symbol: string, operand: V)

  predicate AllBinary<V>(terms: seq<Term<V>>) {
    forall i :: 0 <= i < |terms| ==> terms[i].symbol in BinarySymbols
  }

  /** The terms applied to `acc` from left to right. */
  function FoldLeft<V>(a: Arith<V>, acc: V, terms: seq<Term<V>>): V
    requires AllBinary(terms)
    decreases |terms|
  {
    if |terms| == 0 then acc
    else
      AllBinaryTail(terms);
      FoldLeft(a, Lookup(a, terms[0].symbol).binary(acc, terms[0].operand), terms[1..])
  }

  /** The history text of the terms: each operator and operand, space-separated. */
  function Spelled<V>(a: Arith<V>, terms: seq<Term<V>>): string
    decreases |terms|
  {
    if |terms| == 0 then ""
    else " " + terms[0].symbol + " " + a.render(terms[0].operand) + Spelled(a, terms[1..])
  }

  /** The inputs of the terms, closed by `=`. */
  function ChainInputs<V>(terms: seq<Term<V>>): seq<Input<V>>
    decreases |terms|
  {
    if |terms| == 0 then [Press(EqualsSymbol)]
    else [Press(terms[0].symbol), Operand(terms[0].operand)] + ChainInputs(terms[1..])
  }

  lemma AllBinaryTail<V>(terms: seq<Term<V>>)
    requires |terms| > 0 && AllBinary(terms)
    ensures terms[0].symbol in BinarySymbols
    ensures AllBinary(terms[1..])
  {
    assert forall i | 0 <= i < |terms[1..]| :: terms[1..][i] == terms[i + 1];
  }

  /** A binary operation pending on a present value, with an expression and
      the last operand still owed to the text. */
  predicate Awaiting<V>(b: Brain<V>) {
    && b.value.Some? && b.expression.Some? && b.pending.Some?
    && b.resultIsPending && b.appendLastOperand
  }

  /** One more term while awaiting: the operator resolves the pending operation
      into the new one's first operand, and the operand becomes the value. */
  lemma ChainStep<V>(a: Arith<V>, b: Brain<V>, t: Term<V>)
    requires Awaiting(b)
    requires t.symbol in BinarySymbols
    ensures Step(a, b, Press(t.symbol)).Next?
    ensures var b2 := SetOperand(a, Step(a, b, Press(t.symbol)).brain, t.operand);
            && Awaiting(b2)
            && b2.value == Some(t.operand)
            && b2.pending == Some(PendingBinaryOperation(Lookup(a, t.symbol).binary,
                                                         b.pending.value.Perform(b.value.value)))
            && b2.expression == Some(b.expression.value + " " + a.render(b.value.value) + " " + t.symbol)
  {
  }

  /** `=` while awaiting resolves the pending operation and spells the value. */
  lemma ChainEquals<V>(a: Arith<V>, b: Brain<V>)
    requires Awaiting(b)
    ensures Run(a, b, [Press(EqualsSymbol)]).Next?
    ensures var r := Run(a, b, [Press(EqualsSymbol)]).brain;
            && r.value == Some(b.pending.value.Perform(b.value.value))
            && r.expression == Some(b.expression.value + " " + a.render(b.value.value))
            && !r.resultIsPending && !r.appendLastOperand && r.pending.None?
  {
    var inputs: seq<Input<V>> := [Press(EqualsSymbol)];
    assert inputs[1..] == [];
  }

  /** From an awaiting state, the terms and `=` fold the pending operation and
      then every term from left to right, and spell the value and every term
      into the expression. */
  lemma {:induction false} ChainResolves<V>(a: Arith<V>, b: Brain<V>, terms: seq<Term<V>>)
    requires Awaiting(b)
    requires AllBinary(terms)
    ensures Run(a, b, ChainInputs(terms)).Next?
    ensures var r := Run(a, b, ChainInputs(terms)).brain;
            && r.value == Some(FoldLeft(a, b.pending.value.Perform(b.value.value), terms))
            && r.expression == Some(b.expression.value + " " + a.render(b.value.value) + Spelled(a, terms))
            && !r.resultIsPending && !r.appendLastOperand && r.pending.None?
    decreases |terms|
  {
    if |terms| == 0 {
      assert ChainInputs(terms) == [Press(EqualsSymbol)];
      ChainEquals(a, b);
      var text := b.expression.value + " " + a.render(b.value.value);
      assert Spelled(a, terms) == "";
      assert text + Spelled(a, terms) == text;
    } else {
      AllBinaryTail(terms);
      var t, rest := terms[0], terms[1..];
      ChainStep(a, b, t);
      var b1 := Step(a, b, Press(t.symbol)).brain;
      var b2 := SetOperand(a, b1, t.operand);
      RunTwo(a, b, Press(t.symbol), Operand(t.operand), ChainInputs(rest));
      assert ChainInputs(terms) == [Press(t.symbol), Operand(t.operand)] + ChainInputs(rest);
      ChainResolves(a, b2, rest);
      var e, v := b.expression.value, b.value.value;
      SpelledStep(a, e + " " + a.render(v), terms);
    }
  }

  /** Spelling one more term. */
  lemma SpelledStep<V>(a: Arith<V>, prefix: string, terms: seq<Term<V>>)
    requires |terms| > 0
    ensures prefix + " " + terms[0].symbol + " " + a.render(terms[0].operand) + Spelled(a, terms[1..])
            == prefix + Spelled(a, terms)
  {
  }

  /** Binary operations chain from left to right: from any state with no
      result pending, `x op1 y1 ... opn yn =` leaves the value
      `FoldLeft(x, terms)`, nothing pending, and the record spelling the whole
      chain followed by " =". */
  lemma {:induction false} ChainIsLeftAssociative<V>(a: Arith<V>, b: Brain<V>, x: V, terms: seq<Term<V>>)
    requires !b.resultIsPending
    requires |terms| > 0 && AllBinary(terms)
    ensures Run(a, b, [Operand(x)] + ChainInputs(terms)).Next?
    ensures var r := Run(a, b, [Operand(x)] + ChainInputs(terms)).brain;
            && Result(r) == Some(FoldLeft(a, x, terms))
            && Record(r) == a.render(x) + Spelled(a, terms) + " ="
            && !r.resultIsPending && r.pending.None?
  {
    AllBinaryTail(terms);
    var t, rest := terms[0], terms[1..];
    var b0 := SetOperand(a, b, x);
    var b1 := Perform(a, b0, t.symbol).brain;
    assert b1.pending == Some(PendingBinaryOperation(Lookup(a, t.symbol).binary, x));
    assert b1.expression == Some(a.render(x) + " " + t.symbol);
    var b2 := SetOperand(a, b1, t.operand);
    var inputs := [Operand(x)] + ChainInputs(terms);
    assert inputs[0] == Operand(x);
    assert inputs[1..] == [Press(t.symbol), Operand(t.operand)] + ChainInputs(rest);
    assert Run(a, b, inputs) == Run(a, b0, inputs[1..]);
    RunTwo(a, b0, Press(t.symbol), Operand(t.operand), ChainInputs(rest));
    ChainResolves(a, b2, rest);
    SpelledStep(a, a.render(x), terms);
  }

  /** `x + y + z =` computes `(x + y) + z`. */
  lemma SumOfThree<V>(a: Arith<V>, x: V, y: V, z: V)
    ensures var inputs := [Operand(x), Press(PlusSymbol), Operand(y), Press(PlusSymbol), Operand(z), Press(EqualsSymbol)];
            && Run(a, Init(), inputs).Next?
            && Result(Run(a, Init(), inputs).brain) == Some(a.plus(a.plus(x, y), z))
  {
    var terms := [Term(PlusSymbol, y), Term(PlusSymbol, z)];
    assert terms[1..][1..] == [];
    assert ChainInputs(terms[1..][1..]) == [Press(EqualsSymbol)];
    assert ChainInputs(terms[1..]) == [Press(PlusSymbol), Operand(z), Press(EqualsSymbol)];
    assert ChainInputs(terms) == [Press(PlusSymbol), Operand(y), Press(PlusSymbol), Operand(z), Press(EqualsSymbol)];
    ChainIsLeftAssociative(a, Init(), x, terms);
    assert Lookup(a, PlusSymbol).binary == a.plus;
    assert FoldLeft(a, x, terms) == FoldLeft(a, a.plus(x, y), terms[1..]);
    assert FoldLeft(a, a.plus(x, y), terms[1..]) == FoldLeft(a, a.plus(a.plus(x, y), z), terms[1..][1..]);
  }

  /** Operands keep their order: `x ÷ y =` computes `divide(x, y)`. */
  lemma DivisionKeepsOrder<V>(a: Arith<V>, x: V, y: V)
    ensures var inputs := [Operand(x), Press(DivideSymbol), Operand(y), Press(EqualsSymbol)];
            && Run(a, Init(), inputs).Next?
            && Result(Run(a, Init(), inputs).brain) == Some(a.divide(x, y))
  {
    var terms := [Term(DivideSymbol, y)];
    assert terms[1..] == [];
    assert ChainInputs(terms) == [Press(DivideSymbol), Operand(y), Press(EqualsSymbol)];
    ChainIsLeftAssociative(a, Init(), x, terms);
  }
}

=== FILE: properties.dfy ===
/** What a single input does to the evaluator's state. */
module BrainProperties {
  import opened CalculatorBrain

  /** The first operand a binary operation captures: the value, after the
      pending operation (if a result is pending and one exists) has been
      resolved against it. */
  function Captured<V>(b: Brain<V>): V
    requires b.value.Some?
  {
    if b.resultIsPending && b.pending.Some? then b.pending.value.Perform(b.value.value) else b.value.value
  }

  /** Only the last of two operands entered in a row counts, in value and text. */
  lemma OperandOverwrites<V>(a: Arith<V>, b: Brain<V>, x: V, y: V)
    ensures SetOperand(a, SetOperand(a, b, x), y) == SetOperand(a, b, y)
  {
  }

  /** A unary or binary operation with no value present changes nothing. */
  lemma AbsentValueIsNoOp<V>(a: Arith<V>, b: Brain<V>, symbol: string)
    requires b.value.None?
    requires symbol in UnarySymbols + BinarySymbols
    ensures Perform(a, b, symbol) == Next(b)
  {
  }

  /** A constant replaces the value, extends the expression by its symbol and
      settles the last operand; the pending operation is untouched. */
  lemma ConstantReplacesValue<V>(a: Arith<V>, b: Brain<V>, symbol: string, c: V)
    ensures Apply(a, b, symbol, Constant(c)).Next?
    ensures var r := Apply(a, b, symbol, Constant(c)).brain;
            && Result(r) == Some(c)
            && r.expression.Some?
            && (b.expression.Some? ==> r.expression.value == b.expression.value + symbol)
            && (b.expression.None? ==> r.expression.value == symbol)
            && !r.appendLastOperand
            && r.resultIsPending == b.resultIsPending && r.pending == b.pending
  {
  }

  /** A unary operation with a value and an expression applies the function to
      the value. While a result is pending it appends `symbol(value)` to the
      expression; otherwise it wraps the whole expression as `symbol(...)`. */
  lemma UnaryAppliesToValue<V>(a: Arith<V>, b: Brain<V>, symbol: string, f: V -> V)
    requires b.value.Some? && b.expression.Some?
    ensures Apply(a, b, symbol, Unary(f)).Next?
    ensures var r := Apply(a, b, symbol, Unary(f)).brain;
            var v, e := b.value.value, b.expression.value;
            && Result(r) == Some(f(v))
            && (b.resultIsPending ==> r.expression == Some(e + " " + symbol + "(" + a.render(v) + ")"))
            && (!b.resultIsPending ==> r.expression == Some(symbol + "(" + e + ")"))
            && !r.appendLastOperand
            && r.resultIsPending == b.resultIsPending && r.pending == b.pending
  {
  }

  /** A binary operation with a value and an expression captures itself with
      the (possibly just resolved) value as first operand, clears the value,
      raises both flags, and extends the expression by the pending operand's
      text (when a result was pending) and then by its own symbol. */
  lemma BinaryAwaitsOperand<V>(a: Arith<V>, b: Brain<V>, symbol: string, f: (V, V) -> V)
    requires b.value.Some? && b.expression.Some?
    ensures Apply(a, b, symbol, Binary(f)).Next?
    ensures var r := Apply(a, b, symbol, Binary(f)).brain;
            var v, e := b.value.value, b.expression.value;
            && r.pending == Some(PendingBinaryOperation(f, Captured(b)))
            && Result(r).None?
            && r.resultIsPending && r.appendLastOperand
            && (b.resultIsPending ==> r.expression == Some(e + " " + a.render(v) + " " + symbol))
            && (!b.resultIsPending ==> r.expression == Some(e + " " + symbol))
  {
  }

  /** `=` (when it does not trap) lowers both flags, appends the last operand's
      text exactly when it was owed and a value is present, and resolves the
      pending operation exactly when it and the value are both present,
      discarding it; otherwise value and pending operation stay as they were. */
  lemma EqualsSettles<V>(a: Arith<V>, b: Brain<V>, symbol: string)
    requires Apply(a, b, symbol, Equals).Next?
    ensures var r := Apply(a, b, symbol, Equals).brain;
            && !r.resultIsPending && !r.appendLastOperand
            && (b.appendLastOperand && b.value.Some? ==>
                  r.expression == Some(b.expression.value + " " + a.render(b.value.value)))
            && (!(b.appendLastOperand && b.value.Some?) ==> r.expression == b.expression)
            && (b.pending.Some? && b.value.Some? ==>
                  r.value == Some(b.pending.value.Perform(b.value.value)) && r.pending.None?)
            && (b.pending.None? || b.value.None? ==> r.value == b.value && r.pending == b.pending)
  {
  }

  /** Pressing `=` a second time changes nothing at all. */
  lemma EqualsIdempotent<V>(a: Arith<V>, b: Brain<V>, symbol: string, symbol': string)
    requires Apply(a, b, symbol, Equals).Next?
    ensures var r := Apply(a, b, symbol, Equals).brain;
            Apply(a, r, symbol', Equals) == Next(r)
  {
  }

  /** Resolving the pending operation twice is resolving it once. */
  lemma PerformPendingIdempotent<V>(b: Brain<V>)
    ensures PerformPending(PerformPending(b)) == PerformPending(b)
  {
  }

  /** `AC`, from any state, shows 0 and an empty record, drops the pending
      operation and lowers `resultIsPending`; it leaves `appendLastOperand`
      as it was. */
  lemma ClearResets<V>(a: Arith<V>, b: Brain<V>)
    ensures Perform(a, b, ClearSymbol).Next?
    ensures var r := Perform(a, b, ClearSymbol).brain;
            && Result(r) == Some(a.zero)
            && Record(r) == " "
            && r.pending.None?
            && !r.resultIsPending
            && r.appendLastOperand == b.appendLastOperand
  {
  }
}

=== FILE: safety.dfy ===
/** When the forced unwraps of the expression are safe.

Every unwrap of the expression in the evaluator happens with a value present,
so they are all safe in a state where a present value (or a pending result)
implies a present expression. Every input except `AC` keeps that property;
`AC` breaks it, by resetting the accumulator to a value of zero with no
expression, and a unary operation, a binary operation, or an `=` that still
owes the last operand's text then traps.
 */
module Safety {
  import opened CalculatorBrain
  import opened Session

  /** A present value, and a pending result, both come with an expression. */
  predicate TextCoversValue<V>(b: Brain<V>) {
    (b.value.Some? || b.resultIsPending) ==> b.expression.Some?
  }

  /** The state `AC` leaves: a value but no expression, nothing pending. */
  predicate Cleared<V>(b: Brain<V>) {
    b.value.Some? && b.expression.None? && !b.resultIsPending && b.pending.None?
  }

  /** A superset of the states a session can reach from a fresh evaluator,
      short of a trap: it includes every one of them and is closed under
      every input that does not trap. */
  predicate Reachable<V>(b: Brain<V>) {
    TextCoversValue(b) || Cleared(b)
  }

  /** A raised `resultIsPending` always has a pending operation behind it. The
      converse does not hold: `=` right after a binary operator lowers the
      flag but keeps the operation. */
  predicate PendingBacksFlag<V>(b: Brain<V>) {
    b.resultIsPending ==> b.pending.Some?
  }

  /** Every input keeps `PendingBacksFlag`, whether or not it is `AC`. */
  lemma StepKeepsPendingBacksFlag<V>(a: Arith<V>, b: Brain<V>, input: Input<V>)
    requires PendingBacksFlag(b)
    ensures Step(a, b, input).Next? ==> PendingBacksFlag(Step(a, b, input).brain)
  {
  }

  /** Every session from a state with `PendingBacksFlag` stays in such states. */
  lemma {:induction false} RunKeepsPendingBacksFlag<V>(a: Arith<V>, b: Brain<V>, inputs: seq<Input<V>>)
    requires PendingBacksFlag(b)
    ensures Run(a, b, inputs).Next? ==> PendingBacksFlag(Run(a, b, inputs).brain)
    decreases |inputs|
  {
    if |inputs| > 0 {
      StepKeepsPendingBacksFlag(a, b, inputs[0]);
      if Step(a, b, inputs[0]).Next? {
        RunKeepsPendingBacksFlag(a, Step(a, b, inputs[0]).brain, inputs[1..]);
      }
    }
  }

  /** A fresh evaluator satisfies the invariant. */
  lemma InitCoversValue<V>()
    ensures TextCoversValue(Init<V>())
  {
  }

  /** Every operation except `AC` keeps the invariant and never traps under it. */
  lemma ApplyKeepsText<V>(a: Arith<V>, b: Brain<V>, symbol: string, op: Operation<V>)
    requires TextCoversValue(b)
    requires !op.Clear?
    ensures Apply(a, b, symbol, op).Next?
    ensures TextCoversValue(Apply(a, b, symbol, op).brain)
  {
  }

  /** Entering an operand keeps the invariant. */
  lemma SetOperandKeepsText<V>(a: Arith<V>, b: Brain<V>, x: V)
    requires TextCoversValue(b)
    ensures TextCoversValue(SetOperand(a, b, x))
  {
  }

  /** `AC` breaks the invariant from every state. */
  lemma ClearDropsText<V>(a: Arith<V>, b: Brain<V>, symbol: string)
    ensures Apply(a, b, symbol, Clear).Next?
    ensures !TextCoversValue(Apply(a, b, symbol, Clear).brain)
    ensures Cleared(Apply(a, b, symbol, Clear).brain)
  {
  }

  /** After `AC`, any unary operation traps unwrapping the expression. */
  lemma ClearThenUnaryTraps<V>(a: Arith<V>, b: Brain<V>, symbol: string)
    requires symbol in UnarySymbols
    ensures Run(a, b, [Press(ClearSymbol), Press(symbol)]) == NilUnwrap(UnaryText)
  {
    var clear: seq<Input<V>> := [Press(ClearSymbol)];
    var c := Perform(a, b, ClearSymbol).brain;
    RunOne(a, b, Press(ClearSymbol));
    RunOne(a, c, Press(symbol));
    RunConcat(a, b, clear, [Press(symbol)]);
    assert clear + [Press(symbol)] == [Press(ClearSymbol), Press(symbol)];
  }

  /** After `AC`, any binary operation traps unwrapping the expression. */
  lemma ClearThenBinaryTraps<V>(a: Arith<V>, b: Brain<V>, symbol: string)
    requires symbol in BinarySymbols
    ensures Run(a, b, [Press(ClearSymbol), Press(symbol)]) == NilUnwrap(BinaryText)
  {
    var clear: seq<Input<V>> := [Press(ClearSymbol)];
    var c := Perform(a, b, ClearSymbol).brain;
    RunOne(a, b, Press(ClearSymbol));
    RunOne(a, c, Press(symbol));
    RunConcat(a, b, clear, [Press(symbol)]);
    assert clear + [Press(symbol)] == [Press(ClearSymbol), Press(symbol)];
  }

  /** `AC` does not lower `appendLastOperand`: `x + AC =` traps when `=`
      appends the last operand. */
  lemma ClearAfterBinaryThenEqualsTraps<V>(a: Arith<V>, x: V)
    ensures Run(a, Init(), [Operand(x), Press(PlusSymbol), Press(ClearSymbol), Press(EqualsSymbol)])
            == NilUnwrap(EqualsText)
  {
    var head: seq<Input<V>> := [Operand(x), Press(PlusSymbol), Press(ClearSymbol)];
    var b1 := SetOperand(a, Init(), x);
    var b2 := Perform(a, b1, PlusSymbol).brain;
    var b3 := Perform(a, b2, ClearSymbol).brain;
    assert b3.appendLastOperand && b3.value.Some? && b3.expression.None?;
    RunTwo(a, Init(), Operand(x), Press(PlusSymbol), [Press(ClearSymbol)]);
    RunOne(a, b2, Press(ClearSymbol));
    RunOne(a, b3, Press(EqualsSymbol));
    RunConcat(a, Init(), head, [Press(EqualsSymbol)]);
    assert head + [Press(EqualsSymbol)]
           == [Operand(x), Press(PlusSymbol), Press(ClearSymbol), Press(EqualsSymbol)];
  }

  /** A session without `AC` that starts from a state meeting the invariant
      never traps, and ends in a state that meets it. */
  lemma {:induction false} NoClearNoTrap<V>(a: Arith<V>, b: Brain<V>, inputs: seq<Input<V>>)
    requires TextCoversValue(b)
    requires NoClear(inputs)
    ensures Run(a, b, inputs).Next?
    ensures TextCoversValue(Run(a, b, inputs).brain)
    decreases |inputs|
  {
    if |inputs| > 0 {
      assert !(inputs[0].Press? && inputs[0].symbol == ClearSymbol);
      match inputs[0] {
        case Operand(x) =>
          SetOperandKeepsText(a, b, x);
        case Press(symbol) =>
          ApplyKeepsText(a, b, symbol, Lookup(a, symbol));
      }
      var b' := Step(a, b, inputs[0]).brain;
      assert NoClear(inputs[1..]) by {
        forall i | 0 <= i < |inputs[1..]|
          ensures !(inputs[1..][i].Press? && inputs[1..][i].symbol == ClearSymbol)
        {
          assert inputs[1..][i] == inputs[i + 1];
        }
      }
      NoClearNoTrap(a, b', inputs[1..]);
    }
  }

  /** One input from a reachable state reaches a reachable state, or traps
      right after `AC`, and only at the unwraps that do not need a pending
      result: the pending-result branch of a unary operation and the chaining
      branch of a binary operation never trap. */
  lemma StepKeepsReachable<V>(a: Arith<V>, b: Brain<V>, input: Input<V>)
    requires Reachable(b)
    ensures Step(a, b, input).Next? ==> Reachable(Step(a, b, input).brain)
    ensures Step(a, b, input).NilUnwrap? ==>
              && Cleared(b)
              && Step(a, b, input).site in {UnaryText, BinaryText, EqualsText}
  {
  }

  /** Every session from a fresh evaluator stays in reachable states; when it
      traps, it traps at a unary operation, a binary operation or `=` that
      met the state `AC` leaves, never at the two unwraps guarded by a
      pending result. */
  lemma {:induction false} RunKeepsReachable<V>(a: Arith<V>, b: Brain<V>, inputs: seq<Input<V>>)
    requires Reachable(b)
    ensures Run(a, b, inputs).Next? ==> Reachable(Run(a, b, inputs).brain)
    ensures Run(a, b, inputs).NilUnwrap? ==> Run(a, b, inputs).site in {UnaryText, BinaryText, EqualsText}
    decreases |inputs|
  {
    if |inputs| > 0 {
      StepKeepsReachable(a, b, inputs[0]);
      if Step(a, b, inputs[0]).Next? {
        RunKeepsReachable(a, Step(a, b, inputs[0]).brain, inputs[1..]);
      }
    }
  }

  /** The two unwraps guarded by a pending result never trap in a session. */
  lemma GuardedUnwrapsAreSafe<V>(a: Arith<V>, inputs: seq<Input<V>>)
    ensures Run(a, Init(), inputs) != NilUnwrap(PendingUnaryText)
    ensures Run(a, Init(), inputs) != NilUnwrap(ChainText)
  {
    InitCoversValue<V>();
    RunKeepsReachable(a, Init(), inputs);
  }
}

=== FILE: scenarios.dfy ===
/** Short sessions from a fresh evaluator, and what they leave behind. */
module Scenarios {
  import opened CalculatorBrain
  import opened Session

  /** `π √` computes the square root of π, and records `√(π)`. */
  lemma ConstantThenUnary<V>(a: Arith<V>)
    ensures var inputs: seq<Input<V>> := [Press(PiSymbol), Press(SqrtSymbol)];
            && Run(a, Init(), inputs).Next?
            && Result(Run(a, Init(), inputs).brain) == Some(a.sqrt(a.pi))
            && Record(Run(a, Init(), inputs).brain) == SqrtSymbol + "(" + PiSymbol + ")" + " ="
  {
    var inputs: seq<Input<V>> := [Press(PiSymbol), Press(SqrtSymbol)];
    var b1 := Perform(a, Init(), PiSymbol).brain;
    assert b1.expression == Some(PiSymbol);
    RunTwo(a, Init(), Press(PiSymbol), Press(SqrtSymbol), []);
    assert inputs + [] == inputs;
  }

  /** A symbol outside the table leaves the result and the record as they were. */
  lemma UnknownKeepsView<V>(a: Arith<V>, b: Brain<V>, symbol: string)
    requires symbol !in Symbols
    ensures Perform(a, b, symbol).Next?
    ensures Result(Perform(a, b, symbol).brain) == Result(b)
    ensures Record(Perform(a, b, symbol).brain) == Record(b)
  {
  }

  /** `=` pressed right after a binary operator finds no value, so it lowers
      both flags but keeps the pending operation: after `x + =` an operation
      is pending while `resultIsPending` is false. That operation is then
      resolved by the next `=` against a freshly entered operand, although
      the record shows only that operand: `x + = y =` shows `y =` and
      computes `x + y`. */
  lemma EqualsWithoutOperandKeepsPending<V>(a: Arith<V>, x: V, y: V)
    ensures var head: seq<Input<V>> := [Operand(x), Press(PlusSymbol), Press(EqualsSymbol)];
            && Run(a, Init(), head).Next?
            && Run(a, Init(), head).brain.pending == Some(PendingBinaryOperation(a.plus, x))
            && !Run(a, Init(), head).brain.resultIsPending
    ensures var inputs: seq<Input<V>> :=
              [Operand(x), Press(PlusSymbol), Press(EqualsSymbol), Operand(y), Press(EqualsSymbol)];
            && Run(a, Init(), inputs).Next?
            && Result(Run(a, Init(), inputs).brain) == Some(a.plus(x, y))
            && Record(Run(a, Init(), inputs).brain) == a.render(y) + " ="
  {
    var head: seq<Input<V>> := [Operand(x), Press(PlusSymbol), Press(EqualsSymbol)];
    var tail: seq<Input<V>> := [Operand(y), Press(EqualsSymbol)];
    var b1 := SetOperand(a, Init(), x);
    var b2 := Perform(a, b1, PlusSymbol).brain;
    var b3 := Perform(a, b2, EqualsSymbol).brain;
    assert b3.pending == Some(PendingBinaryOperation(a.plus, x));
    assert !b3.resultIsPending && !b3.appendLastOperand && b3.value.None?;
    RunTwo(a, Init(), Operand(x), Press(PlusSymbol), [Press(EqualsSymbol)]);
    RunOne(a, b2, Press(EqualsSymbol));
    var b4 := SetOperand(a, b3, y);
    assert b4.expression == Some(a.render(y));
    var b5 := Perform(a, b4, EqualsSymbol).brain;
    assert b5.value == Some(a.plus(x, y));
    RunTwo(a, b3, Operand(y), Press(EqualsSymbol), []);
    assert tail + [] == tail;
    RunConcat(a, Init(), head, tail);
    assert head + tail == [Operand(x), Press(PlusSymbol), Press(EqualsSymbol), Operand(y), Press(EqualsSymbol)];
  }

  /** A constant entered as the second operand is spelled by its rendered
      value once a binary operator follows: `x + π + y =` computes
      `(x + π) + y` and records `x +π π' + y =`, where `π'` is the rendered
      value of π next to the symbol glued to the operator. */
  lemma ConstantThenBinarySpellsValue<V>(a: Arith<V>, x: V, y: V)
    ensures var inputs: seq<Input<V>> :=
              [Operand(x), Press(PlusSymbol), Press(PiSymbol), Press(PlusSymbol), Operand(y), Press(EqualsSymbol)];
            && Run(a, Init(), inputs).Next?
            && Result(Run(a, Init(), inputs).brain) == Some(a.plus(a.plus(x, a.pi), y))
            && Record(Run(a, Init(), inputs).brain)
               == a.render(x) + " " + PlusSymbol + PiSymbol + " " + a.render(a.pi)
                  + " " + PlusSymbol + " " + a.render(y) + " ="
  {
    var head: seq<Input<V>> := [Operand(x), Press(PlusSymbol), Press(PiSymbol)];
    var tail: seq<Input<V>> := [Press(PlusSymbol), Operand(y), Press(EqualsSymbol)];
    var b1 := SetOperand(a, Init(), x);
    var b2 := Perform(a, b1, PlusSymbol).brain;
    var b3 := Perform(a, b2, PiSymbol).brain;
    assert b3.expression == Some(a.render(x) + " " + PlusSymbol + PiSymbol);
    RunTwo(a, Init(), Operand(x), Press(PlusSymbol), [Press(PiSymbol)]);
    RunOne(a, b2, Press(PiSymbol));
    var b4 := Perform(a, b3, PlusSymbol).brain;
    assert b4.pending == Some(PendingBinaryOperation(a.plus, a.plus(x, a.pi)));
    assert b4.expression == Some(a.render(x) + " " + PlusSymbol + PiSymbol + " " + a.render(a.pi) + " " + PlusSymbol);
    var b5 := SetOperand(a, b4, y);
    var b6 := Perform(a, b5, EqualsSymbol).brain;
    assert b6.value == Some(a.plus(a.plus(x, a.pi), y));
    RunTwo(a, b3, Press(PlusSymbol), Operand(y), [Press(EqualsSymbol)]);
    RunOne(a, b5, Press(EqualsSymbol));
    assert [Press(PlusSymbol), Operand(y)] + [Press(EqualsSymbol)] == tail;
    RunConcat(a, Init(), head, tail);
    assert head + tail
           == [Operand(x), Press(PlusSymbol), Press(PiSymbol), Press(PlusSymbol), Operand(y), Press(EqualsSymbol)];
  }

  /** A constant entered as the second operand is not spelled as an operand:
      `x + π =` computes `x + π` and records the constant glued to the
      operator, `x +π =`. */
  lemma ConstantAsSecondOperand<V>(a: Arith<V>, x: V)
    ensures var inputs: seq<Input<V>> := [Operand(x), Press(PlusSymbol), Press(PiSymbol), Press(EqualsSymbol)];
            && Run(a, Init(), inputs).Next?
            && Result(Run(a, Init(), inputs).brain) == Some(a.plus(x, a.pi))
            && Record(Run(a, Init(), inputs).brain) == a.render(x) + " " + PlusSymbol + PiSymbol + " ="
  {
    var head: seq<Input<V>> := [Operand(x), Press(PlusSymbol)];
    var tail: seq<Input<V>> := [Press(PiSymbol), Press(EqualsSymbol)];
    var b1 := SetOperand(a, Init(), x);
    var b2 := Perform(a, b1, PlusSymbol).brain;
    var b3 := Perform(a, b2, PiSymbol).brain;
    assert b3.expression == Some(a.render(x) + " " + PlusSymbol + PiSymbol);
    var b4 := Perform(a, b3, EqualsSymbol).brain;
    assert b4.value == Some(a.plus(x, a.pi));
    RunTwo(a, Init(), Operand(x), Press(PlusSymbol), []);
    RunTwo(a, b2, Press(PiSymbol), Press(EqualsSymbol), []);
    assert head + [] == head && tail + [] == tail;
    RunConcat(a, Init(), head, tail);
    assert head + tail == [Operand(x), Press(PlusSymbol), Press(PiSymbol), Press(EqualsSymbol)];
  }

  /** `AC` keeps `appendLastOperand`, which the `+` before it raised. So in
      `x + AC y =` the operand `y` is spelled twice: its text starts the
      expression, and `=` then appends it once more as if it completed a
      binary operation. The session shows the value `y` and the record
      `y y =`. */
  lemma ClearKeepsOperandOwed<V>(a: Arith<V>, x: V, y: V)
    ensures var inputs: seq<Input<V>> :=
              [Operand(x), Press(PlusSymbol), Press(ClearSymbol), Operand(y), Press(EqualsSymbol)];
            && Run(a, Init(), inputs).Next?
            && Result(Run(a, Init(), inputs).brain) == Some(y)
            && Record(Run(a, Init(), inputs).brain) == a.render(y) + " " + a.render(y) + " ="
  {
    var head: seq<Input<V>> := [Operand(x), Press(PlusSymbol), Press(ClearSymbol)];
    var tail: seq<Input<V>> := [Operand(y), Press(EqualsSymbol)];
    var b1 := SetOperand(a, Init(), x);
    var b2 := Perform(a, b1, PlusSymbol).brain;
    var b3 := Perform(a, b2, ClearSymbol).brain;
    assert b3.appendLastOperand && !b3.resultIsPending && b3.pending.None?;
    var b4 := SetOperand(a, b3, y);
    assert b4.expression == Some(a.render(y));
    var b5 := Perform(a, b4, EqualsSymbol).brain;
    assert b5.value == Some(y);
    assert b5.expression == Some(a.render(y) + " " + a.render(y));
    RunTwo(a, Init(), Operand(x), Press(PlusSymbol), [Press(ClearSymbol)]);
    RunOne(a, b2, Press(ClearSymbol));
    RunTwo(a, b3, Operand(y), Press(EqualsSymbol), []);
    assert tail + [] == tail;
    RunConcat(a, Init(), head, tail);
    assert head + tail
           == [Operand(x), Press(PlusSymbol), Press(ClearSymbol), Operand(y), Press(EqualsSymbol)];
  }
}

=== FILE: session.dfy ===
/** A calculation session: the sequence of inputs a caller feeds the evaluator,
    one at a time, reading the state after each. */
module Session {
  import opened CalculatorBrain

  /** One call into the evaluator: an operand, or a symbol pressed. */
  datatype Input<V> = Operand(operand: V) | Press(symbol: string)

  /** The effect of one input. */
  function Step<V>(a: Arith<V>, b: Brain<V>, input: Input<V>): (r: Outcome<V>)
    ensures input.Operand? ==> r.Next? && Result(r.brain) == Some(input.operand)
    ensures input.Press? && input.symbol !in Symbols ==> r == Next(b)
  {
    match input
    case Operand(x) => Next(SetOperand(a, b, x))
    case Press(symbol) => Perform(a, b, symbol)
  }

  /** The inputs applied in order; the first trap ends the session. */
  function Run<V>(a: Arith<V>, b: Brain<V>, inputs: seq<Input<V>>): Outcome<V>
    decreases |inputs|
  {
    if |inputs| == 0 then Next(b)
    else
      match Step(a, b, inputs[0])
      case Next(b') => Run(a, b', inputs[1..])
      case NilUnwrap(site) => NilUnwrap(site)
  }

  /** Continues a session with more inputs, unless it has already trapped. */
  function Continue<V>(a: Arith<V>, o: Outcome<V>, inputs: seq<Input<V>>): Outcome<V> {
    match o
    case Next(b) => Run(a, b, inputs)
    case NilUnwrap(site) => NilUnwrap(site)
  }

  /** Running two batches of inputs one after the other is running them together. */
  lemma {:induction false} RunConcat<V>(a: Arith<V>, b: Brain<V>, xs: seq<Input<V>>, ys: seq<Input<V>>)
    ensures Run(a, b, xs + ys) == Continue(a, Run(a, b, xs), ys)
    decreases |xs|
  {
    if |xs| > 0 {
      assert (xs + ys)[0] == xs[0];
      assert (xs + ys)[1..] == xs[1..] + ys;
      match Step(a, b, xs[0])
      case Next(b') => RunConcat(a, b', xs[1..], ys);
      case NilUnwrap(_) =>
    } else {
      assert xs + ys == ys;
    }
  }

  /** Running one input is taking one step. */
  lemma RunOne<V>(a: Arith<V>, b: Brain<V>, input: Input<V>)
    ensures Run(a, b, [input]) == Step(a, b, input)
  {
    var inputs := [input];
    assert inputs[1..] == [];
  }

  /** Running two inputs and then the rest. */
  lemma RunTwo<V>(a: Arith<V>, b: Brain<V>, first: Input<V>, second: Input<V>, rest: seq<Input<V>>)
    requires Step(a, b, first).Next?
    requires Step(a, Step(a, b, first).brain, second).Next?
    ensures Run(a, b, [first, second] + rest)
            == Run(a, Step(a, Step(a, b, first).brain, second).brain, rest)
  {
    var inputs := [first, second] + rest;
    assert inputs[0] == first;
    assert inputs[1..][0] == second;
    assert inputs[1..][1..] == rest;
  }

  /** No input is `AC`. */
  predicate NoClear<V>(inputs: seq<Input<V>>) {
    forall i :: 0 <= i < |inputs| ==> !(inputs[i].Press? && inputs[i].symbol == ClearSymbol)
  }
}
